=== FILE: README.md ===
# Token sessions of the Axum JWT boilerplate, in Dafny

This project models the token-session core of an Axum web service (a REST boilerplate with JWT authentication, Redis and SeaORM). The modelled pieces are:

- the JWT codec with its process-wide key;
- the Redis store that holds the token blacklist;
- the five admin credential handlers: `register`, `login`, `logout`, `refresh_token` and `verify_email`;
- the `AuthBearer` extractor;
- the four request guards: admin auth, customer auth, admin guest and customer guest.

Everything is modelled with pure functions over immutable data. The wall clock is an explicit parameter `now` (seconds). Every round trip to Redis, the database or the message queue takes a `Link` argument, `Up` or `Down(reason)`, which says whether that call succeeded.

The modules:

| file | module | what it holds |
|---|---|---|
| `prelude.dfy` | `Prelude` | `Option`, `Result`, `Outcome`, `Byte`, `Link` |
| `text.dfy` | `Text` | `trim_start_matches`, header `to_str`, decimal rendering and `i32` parsing |
| `jwt.dfy` | `Jwt` | claims, the abstract codec, `init_keys`, `create_jwt`, `verify_jwt`, email-verification tokens |
| `redis.dfy` | `Redis` | an expiring key/value map with `set_value`, `get_value`, `delete_key` and `key_exists` |
| `blacklist.dfy` | `Blacklist` | `blacklist_token`, `is_blacklisted`, `remove_from_blacklist` |
| `http.dfy` | `Http` | error statuses and responses |
| `auth_bearer.dfy` | `AuthBearer` | reading the `Authorization` header, and the extractor |
| `middleware.dfy` | `Middleware` | the four guards |
| `auth_controller.dfy` | `AuthController` | the users table and the five handlers |
| `sessions.dfy` | `Sessions` | properties of handler sequences and of guard pairs |

## Modelling choices

- **Tokens.**
  - HMAC signing, base64 and JSON together form one abstract `Codec`, a pair of functions `encode` and `decode`.
  - Two hypotheses are assumed about them, each only by the lemmas that take it as a precondition:
    - `RoundTrips(codec)`: decoding with the same secret what was encoded with it gives the claims back.
    - `AuthBearer.HeaderSafe(codec)`: every encoded token is header text and does not itself start with `"Bearer "`. Real tokens are base64url segments joined by '.', so both hold.
  - `verify_jwt` is `decode` followed by the expiry check of the library's default validation. A token is rejected when `exp + leeway < now`. The leeway is a parameter and is never fixed.
- **Keys.** The two `OnceCell` key handles are always set together from one secret, so they are one cell, `Issuer.secret`. Calling `create_jwt` or `verify_jwt` before `init_keys` panics, so every caller that reaches them requires `Ready()`.
- **Store.**
  - The store is a map from key to `(value, expiresAt)`.
  - `SETEX` with ttl `t` at time `now` stores expiry `now + t`. A key is live while `now < expiresAt`.
  - A ttl of 0 is answered by Redis with an error, and the model does the same.
  - Every operation goes through `get_cache`, which panics before `init_cache`, so every operation requires `ready`.
  - `blacklist_token` with `exp <= now` never reaches the store, so it needs `ready` only when `exp > now`.
- **Users table.** The table is a sequence of rows, where row `i` has auto-increment id `i + 1`: the model keeps ids dense, although a real sequence can skip an id after a failed insert. An email lookup returns the first matching row. Ids appear in tokens as decimal text. `verify_email` parses them with the rules of Rust's `i32` parsing: an optional sign, at least one digit, and a value within range.
- **Header.** The header is an optional byte string. `to_str` succeeds exactly when every byte is a tab or lies in 32..126; otherwise the guards behave as if the header were missing.
- **Bcrypt.**
  - Hashing is an input to `register`: a hash or an error.
  - Password checking is an abstract `Matcher` function that returns match, mismatch or an error.

## What the proofs show about sessions

- **A logged-out token is refused by the admin guard until its `exp`.** `Sessions.LogoutRevokesForAdminGate` proves this. The guard also refuses it with a 500 when Redis is unreachable.
- **Revocation lapses before verification does.**
  - The blacklist entry expires at `exp`, but verification accepts the token until `exp + leeway` inclusive.
  - So between `exp` and `exp + leeway`, a logged-out admin token passes the admin guard again (`Sessions.RevokedTokenAdmittedAfterEntryLapses`). With time counted in whole seconds, as in the model, this window is never empty: at the second `exp` itself the token is still admitted, even with no leeway.
  - A rotated refresh token can likewise be rotated again in that window (`Sessions.RefreshReusableAfterEntryLapses`).
- **A refresh token is single-use while it lives.** `Sessions.RefreshIsSingleUse` proves this for sequential calls.
- **A refresh in the same second returns the old token.** Tokens carry no nonce and no issue time, so a refresh in the second the refresh token was minted returns that very token as the "new" refresh token. That token has just been blacklisted (`Sessions.SameSecondRefreshReturnsRevokedToken`).
- **Access and refresh tokens are interchangeable.** Nothing in a token says which kind it is, so a one-hour access token is accepted by `refresh_token` (`Sessions.AccessTokenRefreshes`).
- **The customer guard never consults the blacklist.** A logged-out "User" token keeps passing it (`Sessions.CustomerGateIgnoresLogout`).
- **Login hides which check failed.** An unknown email and a wrong password give the same 401 (`Sessions.LoginDoesNotLeak`).
- **The guest guards complement the auth guards** (`Sessions.AdminGuestComplementsAdminAuth`, `Sessions.CustomerGuestComplementsCustomerAuth`).
  - The admin guest guard blocks a request exactly when the admin guard would let it through, or would refuse it only because of its role.
  - When Redis cannot be asked, the admin guard refuses every request, and the guest guard counts the token as not blacklisted, so it turns away with a 403 every request whose token verifies (`Sessions.AdminGuardsWithStoreDown`).

Behaviours of the code worth noting:

- `register` answers a plain 200 (`Json`) with the token body.
- Reusing a refresh token gives the message "Refresh token is blacklisted.", not the admin guard's "This token has been blacklisted.".
- The customer guard has no blacklist check.
- `trim_start_matches("Bearer ")` strips every leading copy of the prefix. `AuthBearer.ReadBearerHeader` and `AuthBearer.ReadBearerShape` characterise this in both directions.

## Model

| member | source | states |
|---|---|---|
| Text.TrimStartMatches | src/config/auth_bearer.rs:35-36 | the result is a suffix of the input that no longer starts with the pattern |
| Text.TrimSplitsOffCopies | src/config/auth_bearer.rs:35-36 | the input is exactly some number of copies of the pattern followed by the trimmed result |
| Text.TrimAfterCopies | src/config/auth_bearer.rs:35-36 | any number of copies of the pattern in front of a string that does not start with it trim back to that string |
| Text.HeaderToStr | src/config/auth_bearer.rs:29-32 | reading the header as text succeeds exactly when every byte is a tab or visible ASCII |
| Text.HeaderTextRoundTrip | src/config/auth_bearer.rs:29-32 | header text sent as bytes reads back as the same text |
| Text.ShowNat | src/app/controllers/admin/auth_controller.rs:113 | an id is rendered as a non-empty digit string with no leading zero |
| Text.DigitsValueOfShow | src/app/controllers/admin/auth_controller.rs:113 | the digits of a rendered id denote that id |
| Text.ParseI32 | src/app/controllers/admin/auth_controller.rs:385-391 | the id parses exactly when it is an optional sign followed by one or more digits whose value fits in `i32`, and the result is that signed value |
| Text.ParseNegatedShow | src/app/controllers/admin/auth_controller.rs:385-391 | a minus sign in front of a rendered number parses to its negation, down to the least `i32` |
| Text.ParseShowNat | src/app/controllers/admin/auth_controller.rs:385-391 | a rendered id within the `i32` range parses back to that id |
| Text.ParseRejectsNonNumeric | src/app/controllers/admin/auth_controller.rs:385-391 | text with no digit at all is rejected as a user id |
| Jwt.InitKeys | src/config/jwt.rs:23-32 | initialisation fails, with "JWT_SECRET must be set", exactly when `JWT_SECRET` is unset and succeeds otherwise, also when a secret is already installed; an installed secret is never replaced |
| Jwt.InitKeysKeepsFirst | src/config/jwt.rs:25-30 | after any series of initialisations, the secret in force is the first one installed |
| Jwt.CreateJwt | src/config/jwt.rs:36-59 | a created token decodes to claims with the user id as both `id` and `sub`, the role verbatim and `exp = now + exp_seconds`; keys must be installed |
| Jwt.VerifyJwt | src/config/jwt.rs:63-69 | a token is accepted exactly when it decodes to claims that have not expired, and then yields those claims; a decodable token is refused only as expired |
| Jwt.VerifyCreated | src/config/jwt.rs:36-69 | a created token verifies to its own claims exactly until `now + exp_seconds + leeway`, and is reported expired after that |
| Jwt.VerifyEarlier | src/config/jwt.rs:63-69 | a token that verifies at some time verifies to the same claims at every earlier time |
| Jwt.VerifyBeforeExpiry | src/config/jwt.rs:63-69 | a token that decodes to claims whose `exp` has not passed verifies to those claims |
| Jwt.CreateEmailJwt | src/app/controllers/admin/auth_controller.rs:133 | an email-verification token decodes to the user id and `now + exp_seconds` |
| Jwt.VerifyEmailJwt | src/app/controllers/admin/auth_controller.rs:376 | an email-verification token is accepted exactly when it decodes to claims that have not expired, and then yields those claims |
| Jwt.VerifyEmailCreated | src/app/controllers/admin/auth_controller.rs:133-144 | a mailed verification token verifies to its own claims exactly until its expiry plus leeway |
| Redis.InitCache | src/config/redis.rs:15-26 | the cache becomes usable exactly when the URL parses and the connection opens; a bad URL and a failed connection give their own messages; stored entries are untouched |
| Redis.SetValue | src/config/redis.rs:36-41 | a write stores the value with expiry `now + ttl`, fails on a dead link or a zero ttl, and touches no other key |
| Redis.GetValue | src/config/redis.rs:43-48 | a read returns the stored value exactly while the key is live |
| Redis.DeleteKey | src/config/redis.rs:50-56 | after a delete the key is absent and no other key changes |
| Redis.KeyExists | src/config/redis.rs:57-63 | a key exists exactly while it is live |
| Redis.ExistsIffGet | src/config/redis.rs:43-63 | `key_exists` holds exactly when `get_value` returns a value |
| Redis.GetAfterSet | src/config/redis.rs:36-48 | after a write, reads return the value until ttl seconds have elapsed and nothing afterwards; other keys read as before |
| Redis.AbsentAfterDelete | src/config/redis.rs:50-63 | after a delete, the key reads as absent and does not exist at any time; other keys read as before |
| Blacklist.BlacklistToken | src/config/blacklist.rs:5-11 | a token whose `exp` is in the future is stored as "blacklisted" until `exp`, a store error is passed on, and an already-expired token leaves the store unchanged with success |
| Blacklist.IsBlacklisted | src/config/blacklist.rs:14-16 | a token is blacklisted exactly while some entry under it is live; a store error is passed on |
| Blacklist.RemoveFromBlacklist | src/config/blacklist.rs:19-21 | after a removal the token is not blacklisted at any time, and no other key changes |
| Blacklist.BlacklistedUntilExp | src/config/blacklist.rs:5-16 | after blacklisting, the token reads as blacklisted exactly until `exp` |
| Blacklist.BlacklistIdempotent | src/config/blacklist.rs:6-8 | blacklisting the same token again, at the same time or later, leaves the store as the first call left it |
| Blacklist.AnyValueBlacklists | src/config/blacklist.rs:15 | any value under a token makes it read as blacklisted |
| AuthBearer.ReadBearer | src/config/auth_bearer.rs:29-54 | the header is missing or unreadable, lacks the prefix, or yields a header-text token that no longer starts with the prefix |
| AuthBearer.ReadBearerHeader | src/config/auth_bearer.rs:34-36 | one or more prefixes in front of a token yield exactly that token |
| AuthBearer.ReadBearerShape | src/config/auth_bearer.rs:34-36 | every header that yields a token is that token behind one or more copies of the prefix |
| AuthBearer.FromRequestParts | src/config/auth_bearer.rs:28-68 | the extractor returns exactly the verified claims, with no blacklist or role check, and otherwise a 401 with the message for a missing or malformed header |
| AuthBearer.ExtractCreated | src/config/auth_bearer.rs:34-67 | a created token sent behind one or more prefixes is extracted to its own claims until its expiry plus leeway, and refused with 401 after that |
| Middleware.AdminAuth | src/app/middleware/admin_auth_middleware.rs:16-77 | the admin guard admits exactly verified, non-blacklisted "Admin" tokens, and gives the status and message of each refusal in check order: 401 for the header, 401 "Invalid or expired token: " with the verifier's error, 500 for a failed lookup, 401 for a blacklisted token, 403 for another role |
| Middleware.CustomerAuth | src/app/middleware/customer_auth_middleware.rs:16-62 | the customer guard admits exactly verified "User" tokens, without reading the store, and gives the status and message of each refusal: 401 for the header, 401 "Invalid or expired token: " with the verifier's error, 403 for another role |
| Middleware.AdminGuest | src/app/middleware/admin_guest_middleware.rs:14-42 | the admin guest guard blocks exactly tokens that verify and are not known to be blacklisted, treating a store error as not blacklisted, and answers only 403 "already logged in" |
| Middleware.CustomerGuest | src/app/middleware/customer_guest_middleware.rs:7-15 | the customer guest guard blocks exactly requests that carry the header at all, with a bare 403 |
| AuthController.FindByEmail | src/app/controllers/admin/auth_controller.rs:60-63 | the lookup finds the first row with the email, or reports that no row has it |
| AuthController.FindById | src/app/controllers/admin/auth_controller.rs:394 | the lookup finds the row whose primary key is the id, exactly when one exists |
| AuthController.Register | src/app/controllers/admin/auth_controller.rs:55-173 | a known email gives 409 and no change; otherwise a new unverified "Admin" user is appended and a 3600 s / 2592000 s "Bearer" pair for the new id is returned, with a verification mail queued; the user stays saved when queueing fails; a failed lookup, hashing error, failed insert or failed publish is a 500 with its own message, and only a known email is a 409; emails stay unique for calls one after another |
| AuthController.Login | src/app/controllers/admin/auth_controller.rs:182-248 | success exactly when the email exists and the password matches, with a token pair bound to the stored id and role; every 401 is "Wrong email or password."; a failed lookup is a 500 "Database error" and a password-check error a 500 "Password verification error" |
| AuthController.Logout | src/app/controllers/admin/auth_controller.rs:265-292 | an unverifiable token gives 401 with the store unchanged; a valid one is blacklisted until its `exp` and the reply is "Logout successful."; a failed blacklist write is a 500 "Token not blacklisted" with the store unchanged |
| AuthController.RefreshToken | src/app/controllers/admin/auth_controller.rs:301-368 | the checks run in order (verify 401, lookup 500, blacklisted 401, a failed blacklist write 500 "Failed to blacklist old refresh token"), errors leave the store unchanged, and success blacklists the old token until its `exp` when that is still ahead (within the leeway after `exp` it rotates with no write) and issues a pair with its id and role |
| AuthController.VerifyEmail | src/app/controllers/admin/auth_controller.rs:371-438 | a bad token or non-integer id gives 400, a failed lookup 500, an absent user 404 "User not found.", an already verified user 400 "Email is already verified.", a failed update 500; success changes only that user's `email_verified_at` |
| Sessions.LogoutRevokesForAdminGate | src/app/controllers/admin/auth_controller.rs:265-292 | after logout, the admin guard refuses the token as blacklisted until its `exp`, and refuses it under any store outcome |
| Sessions.RevokedTokenAdmittedAfterEntryLapses | src/app/middleware/admin_auth_middleware.rs:43-76 | between `exp` and `exp + leeway`, a logged-out admin token passes the admin guard again |
| Sessions.CustomerGateIgnoresLogout | src/app/middleware/customer_auth_middleware.rs:43-61 | a logged-out "User" token still passes the customer guard while the admin guard refuses it |
| Sessions.LogoutIdempotent | src/app/controllers/admin/auth_controller.rs:278-291 | a second logout with the same token succeeds and leaves the store unchanged |
| Sessions.RefreshIsSingleUse | src/app/controllers/admin/auth_controller.rs:314-341 | a rotated refresh token never rotates again before its `exp`, and is refused as blacklisted when the lookup succeeds |
| Sessions.RefreshReusableAfterEntryLapses | src/app/controllers/admin/auth_controller.rs:305-341 | between `exp` and `exp + leeway`, a rotated refresh token rotates again |
| Sessions.SameSecondRefreshReturnsRevokedToken | src/app/controllers/admin/auth_controller.rs:333-360 | a refresh in the issuing second returns the old refresh token, which is then refused as blacklisted |
| Sessions.AccessTokenRefreshes | src/app/controllers/admin/auth_controller.rs:301-311 | a login's access token is accepted by the refresh handler |
| Sessions.AdminGuestComplementsAdminAuth | src/app/middleware/admin_guest_middleware.rs:23-36 | with the store up, the admin guest guard blocks exactly what the admin guard admits or refuses only by role |
| Sessions.AdminGuardsWithStoreDown | src/app/middleware/admin_guest_middleware.rs:28 | with the store down, the admin guard refuses everything, and the guest guard blocks exactly the verifying tokens |
| Sessions.CustomerGuestComplementsCustomerAuth | src/app/middleware/customer_guest_middleware.rs:9-14 | the customer guest guard passes only header-less requests, which the customer guard refuses as missing the header, and blocks everything the customer guard admits |
| Sessions.UserTokenForbiddenAtAdminGate | src/app/middleware/admin_auth_middleware.rs:67-74 | a "User" login's access token is refused by the admin guard with 403 |
| Sessions.RegisterTwiceConflicts | src/app/controllers/admin/auth_controller.rs:72-82 | registering the same email a second time gives 409 and adds no user |
| Sessions.RegisterThenLogin | src/app/controllers/admin/auth_controller.rs:93-101 | a just-registered user logs in with a token pair for the new id and role "Admin" |
| Sessions.RegisterThenVerifyEmail | src/app/controllers/admin/auth_controller.rs:132-157 | the mailed link's token verifies the new user within its lifetime and sets `email_verified_at`; following it again gives 400 |
| Sessions.LoginDoesNotLeak | src/app/controllers/admin/auth_controller.rs:209-247 | an unknown email and a wrong password give the same 401 reply |

## Left out

- **Cryptography and serialisation.** HMAC-SHA256, base64 and JSON are the abstract `Codec`. Only `RoundTrips` and `AuthBearer.HeaderSafe` are assumed about it, and only where a lemma says so.
- **Token-creation errors.** The error branches of `create_jwt` in the handlers cannot be reached: HS256 encoding of these claims does not fail, so `CreateJwt` is total.
- **Validation defaults.** The library's `Validation` defaults appear only as the expiry rule with a `leeway` parameter. Audience, issuer, `nbf` and algorithm checks are not modelled.
- **Email-verification tokens.** The definitions of `create_email_verification_jwt` and `verify_email_verification_jwt` are not part of this model. The two functions are modelled as a second codec over `{id, exp}`, using the same key cell and expiry rule.
- **Bcrypt.** Its internals are out of scope. Hashing is an input and matching is an abstract function.
- **The database.**
  - SeaORM queries are a sequence of rows with an outcome per round trip.
  - A row's timestamp is the `now` seconds value.
  - The schema and migrations are not modelled.
- **The email pipeline.** RabbitMQ, the email worker and SMTP are out of scope. `register` is modelled up to the queued job's recipient, subject and link; the HTML body is dropped.
- **Concurrency.** The model is sequential, so it does not rule out races between concurrent requests:
  - The lookup and the write of `refresh_token` are not atomic. `Sessions.RefreshIsSingleUse` holds only for calls one after the other and does not rule out a double refresh.
  - The email lookup and the insert of `register` are not atomic either. `AuthController.Register` preserves `UniqueEmails` only for calls one after the other: two concurrent registrations with one email can both insert, unless the users table has a unique index. The migrations are not part of this model.
- **Clocks.** Each handler reads one `now`, while the code reads the clock separately in `verify_jwt`, `blacklist_token` and `create_jwt`, and Redis expires keys in milliseconds on its own clock. The model's time is whole seconds shared by the service and the store.
- **Uncertain failures.** A failed Redis or database call is assumed to have changed nothing, although a real timeout may have written.
- **Connection setup.** `init_cache` is reduced to its two failure kinds and "becomes ready". The `Arc<Mutex<..>>` plumbing is dropped.
- **Other files.** Routing, bootstrap, `src/config/cache.rs` and the category, dashboard and customer controllers are not part of this model.
- **Integer widths.**
  - Timestamps and ttls are unbounded naturals, so the `usize`/`i64`/`u64` casts around them never wrap here.
  - Ids above the `i32` range are rendered but rejected by `verify_email`, as in the code.
  - `Sessions.RegisterThenVerifyEmail` assumes the new id fits in `i32`.
- **Error text from libraries.** Error strings of the libraries appear as opaque `reason` text, except the expiry error.

=== FILE: auth_bearer.dfy ===
/** Reading a bearer credential out of the `Authorization` header, and the
    `AuthBearer` extractor of `src/config/auth_bearer.rs`.

    The admin and customer guards repeat the extractor's header handling
    word for word, so `ReadBearer` is defined once here and they use it. */
module AuthBearer {
  import opened Prelude
  import opened Text
  import opened Jwt
  import opened Http

  const BearerPrefix: string := "Bearer "

  const HeaderMissing: string := "Authorization header missing."
  const BearerExpected: string := "Invalid token format. Bearer token expected."
  const InvalidOrExpired: string := "Invalid or expired token: "

  /** The second hypothesis about the codec, next to `RoundTrips`: every token
      it produces can travel in a header and does not itself begin with the
      bearer prefix. Real tokens are base64url segments joined by '.', which
      satisfy both. */
  ghost predicate HeaderSafe<C(!new)>(codec: Codec<C>) {
    forall k: Secret, c: C :: IsHeaderText(codec.encode(k, c)) && !StartsWith(codec.encode(k, c), BearerPrefix)
  }

  /** What a guard finds in the `Authorization` header: nothing usable (absent,
      or not valid header text), text without the bearer prefix, or a token. */
  datatype Credential = Missing | NotBearer | Bearer(token: string)

  /** The header (its first value, if any) read as text; when it starts with
      `"Bearer "`, every leading repetition of that prefix is stripped. */
  function ReadBearer(header: Option<seq<Byte>>): (r: Credential)
    ensures r.Missing? <==> header.None? || HeaderToStr(header.value).None?
    ensures r.NotBearer? <==> header.Some? && HeaderToStr(header.value).Some?
                              && !StartsWith(HeaderToStr(header.value).value, BearerPrefix)
    ensures r.Bearer? ==> !StartsWith(r.token, BearerPrefix) && IsHeaderText(r.token)
  {
    match header
    case None => Missing
    case Some(v) =>
      match HeaderToStr(v)
      case None => Missing
      case Some(text) =>
        if StartsWith(text, BearerPrefix) then
          var token := TrimStartMatches(text, BearerPrefix);
          assert token == text[|text| - |token|..];
          Bearer(token)
        else
          NotBearer
  }

  /** The header a client sends for `token`, after `k` extra copies of the prefix. */
  function BearerHeader(token: string, k: nat): (h: Option<seq<Byte>>)
    requires IsHeaderText(token)
    ensures h.Some?
  {
    var text := Repeat(BearerPrefix, k + 1) + token;
    assert IsHeaderText(Repeat(BearerPrefix, k + 1)) by { RepeatPrefixIsText(k + 1); }
    Some(HeaderBytes(text))
  }

  lemma {:induction false} RepeatPrefixIsText(k: nat)
    ensures IsHeaderText(Repeat(BearerPrefix, k))
  {
    if k > 0 {
      RepeatPrefixIsText(k - 1);
      assert Repeat(BearerPrefix, k) == BearerPrefix + Repeat(BearerPrefix, k - 1);
    }
  }

  /** Any number of prefixes in front of a token that does not itself start
      with the prefix yield exactly that token. */
  lemma ReadBearerHeader(token: string, k: nat)
    requires IsHeaderText(token) && !StartsWith(token, BearerPrefix)
    ensures ReadBearer(BearerHeader(token, k)) == Bearer(token)
  {
    var text := Repeat(BearerPrefix, k + 1) + token;
    RepeatPrefixIsText(k + 1);
    HeaderTextRoundTrip(text);
    assert text == BearerPrefix + (Repeat(BearerPrefix, k) + token);
    assert text[..|BearerPrefix|] == BearerPrefix;
    TrimAfterCopies(BearerPrefix, k + 1, token);
  }

  /** Conversely, every header that yields a token is that token behind one
      or more copies of the prefix. */
  lemma ReadBearerShape(header: Option<seq<Byte>>)
    requires ReadBearer(header).Bearer?
    ensures exists k: nat :: 1 <= k && HeaderToStr(header.value) == Some(Repeat(BearerPrefix, k) + ReadBearer(header).token)
  {
    var text := HeaderToStr(header.value).value;
    TrimSplitsOffCopies(text, BearerPrefix);
    var k := LeadingCopies(text, BearerPrefix);
    assert StartsWith(text, BearerPrefix);
    assert 1 <= k;
  }

  /** `AuthBearer::from_request_parts` at time `now`: the verified claims, with
      no blacklist check and no role check, or a 401. */
  function FromRequestParts(header: Option<seq<Byte>>, iss: Issuer, now: nat): (r: Result<Claims, Rejection>)
    requires ReadBearer(header).Bearer? ==> iss.Ready()
    ensures r.Ok? <==> ReadBearer(header).Bearer? && VerifyJwt(iss, ReadBearer(header).token, now).Ok?
    ensures r.Ok? ==> r.value == VerifyJwt(iss, ReadBearer(header).token, now).value
    ensures r.Err? ==> r.error.status == Unauthorized
    ensures ReadBearer(header).Missing? ==> r == Err(Reject(Unauthorized, HeaderMissing))
    ensures ReadBearer(header).NotBearer? ==> r == Err(Reject(Unauthorized, BearerExpected))
  {
    match ReadBearer(header)
    case Missing => Err(Reject(Unauthorized, HeaderMissing))
    case NotBearer => Err(Reject(Unauthorized, BearerExpected))
    case Bearer(token) =>
      match VerifyJwt(iss, token, now)
      case Err(e) => Err(Reject(Unauthorized, InvalidOrExpired + e))
      case Ok(claims) => Ok(claims)
  }

  /** A freshly created token sent behind one or more prefixes is extracted
      to exactly the claims it was created with, until its expiry plus the
      leeway has passed, and refused with a 401 after that. */
  lemma ExtractCreated(iss: Issuer, userId: string, role: string, expSeconds: nat, now: nat, later: nat, k: nat)
    requires iss.Ready() && RoundTrips(iss.codec) && HeaderSafe(iss.codec)
    ensures var header := BearerHeader(CreateJwt(iss, userId, role, expSeconds, now), k);
      && (later <= now + expSeconds + iss.validation.leeway ==>
            FromRequestParts(header, iss, later) == Ok(Claims(userId, userId, role, now + expSeconds)))
      && (later > now + expSeconds + iss.validation.leeway ==>
            FromRequestParts(header, iss, later) == Err(Reject(Unauthorized, InvalidOrExpired + ExpiredSignature)))
  {
    var token := CreateJwt(iss, userId, role, expSeconds, now);
    ReadBearerHeader(token, k);
    VerifyCreated(iss, userId, role, expSeconds, now, later);
  }
}

=== FILE: auth_controller.dfy ===
/** The admin credential handlers of
    `src/app/controllers/admin/auth_controller.rs`: register, login, logout,
    refresh-token rotation and email verification, each a pure step from the
    users table and/or the store, the time and the request to a response and
    the new table or store.

    Database queries, bcrypt, the message queue and the store are external:
    the environment supplies the fate of every round trip (a `Link`), the
    outcome of hashing, and the password-matching function. */
module AuthController {
  import opened Prelude
  import opened Text
  import opened Jwt
  import opened Redis
  import opened Blacklist
  import opened Http

  // ---------------------------------------------------------------------------
  // Users table

  /** A row of the users table; `emailVerifiedAt` is unset until verification. */
  datatype User = User(name: string, email: string, password: string, role: string, emailVerifiedAt: Option<nat>)

  /** The users table. Row `i` has the auto-increment primary key `i + 1`;
      no handler here deletes a row. */
  datatype Db = Db(rows: seq<User>)

  function IdOf(i: nat): nat {
    i + 1
  }

  /** No two users share an email. */
  ghost predicate UniqueEmails(db: Db) {
    forall i, j :: 0 <= i < j < |db.rows| ==> db.rows[i].email != db.rows[j].email
  }

  /** `User::find().filter(email).one()`: the position of the first row with
      that email, if any. */
  function FindByEmail(rows: seq<User>, email: string): (r: Option<nat>)
    ensures r.Some? ==> r.value < |rows| && rows[r.value].email == email
    ensures r.Some? ==> forall j :: 0 <= j < r.value ==> rows[j].email != email
    ensures r.None? ==> forall j :: 0 <= j < |rows| ==> rows[j].email != email
    decreases |rows|
  {
    if rows == [] then None
    else if rows[0].email == email then Some(0)
    else
      match FindByEmail(rows[1..], email)
      case None => None
      case Some(i) => Some(i + 1)
  }

  /** `User::find_by_id(id).one()`: the position of the row with key `id`. */
  function FindById(db: Db, id: int): (r: Option<nat>)
    ensures r.Some? <==> exists i :: 0 <= i < |db.rows| && IdOf(i) == id
    ensures r.Some? ==> r.value < |db.rows| && IdOf(r.value) == id
  {
    if 1 <= id <= |db.rows| then
      assert IdOf(id - 1) == id;
      Some(id - 1)
    else
      None
  }

  // ---------------------------------------------------------------------------
  // Constants and responses

  const AccessLifetime: nat := 3600
  const RefreshLifetime: nat := 2592000
  const VerificationLifetime: nat := 86400
  const TokenType: string := "Bearer"
  const VerifyLinkBase: string := "http://localhost:8080/admin/verify-email/"
  const VerifySubject: string := "Verify your email address"

  const DatabaseError: string := "Database error: "
  const EmailExists: string := "Email already exists."
  const HashingError: string := "Password hashing error: "
  const DatabaseIssue: string := "Database issue: "
  const QueueFailure: string := "Failed to send email task to RabbitMQ: "
  const WrongCredentials: string := "Wrong email or password."
  const MatchingError: string := "Password verification error: "
  const InvalidToken: string := "Invalid Token: "
  const NotBlacklisted: string := "Token not blacklisted: "
  const LoggedOut: string := "Logout successful."
  const InvalidRefresh: string := "Invalid or expired refresh token."
  const RefreshBlacklisted: string := "Refresh token is blacklisted."
  const RotationFailed: string := "Failed to blacklist old refresh token: "
  const InvalidVerification: string := "Invalid or expired verification token: "
  const InvalidUserId: string := "Invalid user ID in token."
  const UserNotFound: string := "User not found."
  const AlreadyVerified: string := "Email is already verified."
  const VerifyUpdateFailed: string := "Failed to update email verification status: "
  const EmailVerified: string := "Email successfully verified."

  /** The `{access_token, refresh_token, token_type}` body of a 200. */
  datatype AuthResponse = AuthResponse(accessToken: string, refreshToken: string, tokenType: string)

  /** The `{status, message}` body of a 200. */
  datatype StatusResponse = StatusResponse(status: bool, message: string)

  /** The message put on the email queue: recipient, subject and the
      verification link its body carries. */
  datatype EmailJob = EmailJob(to: string, subject: string, link: string)

  /** The access and refresh tokens for a user id and role, both carrying the
      claims `create_jwt` would sign at `now`. */
  ghost predicate IssuedPair(iss: Issuer, resp: AuthResponse, userId: string, role: string, now: nat)
    requires iss.Ready()
  {
    && iss.codec.decode(iss.secret.value, resp.accessToken) == Ok(Claims(userId, userId, role, now + AccessLifetime))
    && iss.codec.decode(iss.secret.value, resp.refreshToken) == Ok(Claims(userId, userId, role, now + RefreshLifetime))
    && resp.tokenType == TokenType
  }

  // ---------------------------------------------------------------------------
  // register

  datatype RegisterRequest = RegisterRequest(name: string, email: string, password: string)

  /** The fate of each external step of `register`: the email lookup, bcrypt
      hashing (the hash, or its error), the insert and the queue publish. */
  datatype RegisterIo = RegisterIo(find: Link, hash: Result<string, string>, save: Link, publish: Link)

  /** `register` reaches token creation: the lookup answered, the email is new,
      hashing and the insert succeeded. */
  predicate RegisterSaves(db: Db, req: RegisterRequest, io: RegisterIo) {
    io.find.Up? && FindByEmail(db.rows, req.email).None? && io.hash.Ok? && io.save.Up?
  }

  /** `register` at time `now`. Returns the response, the users table after
      the call and the job put on the email queue, if any. The new user is
      already stored when publishing fails. */
  function Register(db: Db, iss: Issuer, req: RegisterRequest, now: nat, io: RegisterIo)
    : (r: (Result<AuthResponse, Rejection>, Db, Option<EmailJob>))
    requires RegisterSaves(db, req, io) ==> iss.Ready()
    ensures io.find.Up? && FindByEmail(db.rows, req.email).Some? ==>
              r == (Err(Reject(Conflict, EmailExists)), db, None)
    ensures !RegisterSaves(db, req, io) ==> r.1 == db && r.2.None? && r.0.Err?
    ensures RegisterSaves(db, req, io) ==>
              r.1 == Db(db.rows + [User(req.name, req.email, io.hash.value, AdminRole, None)])
    ensures r.0.Ok? <==> RegisterSaves(db, req, io) && io.publish.Up?
    ensures r.0.Ok? && RoundTrips(iss.codec) ==>
              IssuedPair(iss, r.0.value, ShowNat(IdOf(|db.rows|)), AdminRole, now)
    ensures r.2.Some? <==> r.0.Ok?
    ensures r.2.Some? ==> r.2.value.to == req.email
    ensures UniqueEmails(db) ==> UniqueEmails(r.1)
    ensures r.0.Err? ==> r.0.error.status in {Conflict, InternalServerError}
    ensures r.0.Err? && r.0.error.status == Conflict ==> io.find.Up? && FindByEmail(db.rows, req.email).Some?
    ensures io.find.Down? ==> r.0 == Err(Reject(InternalServerError, DatabaseError + io.find.reason))
    ensures io.find.Up? && FindByEmail(db.rows, req.email).None? && io.hash.Err? ==>
              r == (Err(Reject(InternalServerError, HashingError + io.hash.error)), db, None)
    ensures io.find.Up? && FindByEmail(db.rows, req.email).None? && io.hash.Ok? && io.save.Down? ==>
              r == (Err(Reject(InternalServerError, DatabaseIssue + io.save.reason)), db, None)
    ensures RegisterSaves(db, req, io) && io.publish.Down? ==>
              r.0 == Err(Reject(InternalServerError, QueueFailure + io.publish.reason))
  {
    match io.find
    case Down(e) => (Err(Reject(InternalServerError, DatabaseError + e)), db, None)
    case Up =>
      if FindByEmail(db.rows, req.email).Some? then
        (Err(Reject(Conflict, EmailExists)), db, None)
      else
        match io.hash
        case Err(e) => (Err(Reject(InternalServerError, HashingError + e)), db, None)
        case Ok(hashed) =>
          match io.save
          case Down(e) => (Err(Reject(InternalServerError, DatabaseIssue + e)), db, None)
          case Up =>
            var db' := Db(db.rows + [User(req.name, req.email, hashed, AdminRole, None)]);
            var userId := ShowNat(IdOf(|db.rows|));
            var access := CreateJwt(iss, userId, AdminRole, AccessLifetime, now);
            var refresh := CreateJwt(iss, userId, AdminRole, RefreshLifetime, now);
            var verification := CreateEmailJwt(iss, userId, VerificationLifetime, now);
            var job := EmailJob(req.email, VerifySubject, VerifyLinkBase + verification);
            match io.publish
            case Down(e) => (Err(Reject(InternalServerError, QueueFailure + e)), db', None)
            case Up => (Ok(AuthResponse(access, refresh, TokenType)), db', Some(job))
  }

  // ---------------------------------------------------------------------------
  // login

  datatype LoginRequest = LoginRequest(email: string, password: string)

  /** `bcrypt::verify(password, hash)`: whether they match, or an error for a
      hash it cannot read. */
  type Matcher = (string, string) -> Result<bool, string>

  /** `login` gets as far as creating tokens. */
  predicate LoginMatches(db: Db, matches: Matcher, req: LoginRequest, find: Link) {
    && find.Up?
    && FindByEmail(db.rows, req.email).Some?
    && matches(req.password, db.rows[FindByEmail(db.rows, req.email).value].password) == Ok(true)
  }

  /** `login` at time `now`; `find` is the fate of the email lookup. It never
      changes the table. */
  function Login(db: Db, iss: Issuer, matches: Matcher, req: LoginRequest, now: nat, find: Link)
    : (r: Result<AuthResponse, Rejection>)
    requires LoginMatches(db, matches, req, find) ==> iss.Ready()
    ensures r.Ok? <==> LoginMatches(db, matches, req, find)
    ensures r.Ok? && RoundTrips(iss.codec) ==>
              var i := FindByEmail(db.rows, req.email).value;
              IssuedPair(iss, r.value, ShowNat(IdOf(i)), db.rows[i].role, now)
    ensures find.Up? && FindByEmail(db.rows, req.email).None? ==>
              r == Err(Reject(Unauthorized, WrongCredentials))
    ensures r.Err? && r.error.status == Unauthorized ==> r.error == Reject(Unauthorized, WrongCredentials)
    ensures find.Down? ==> r == Err(Reject(InternalServerError, DatabaseError + find.reason))
    ensures find.Up? && FindByEmail(db.rows, req.email).Some?
            && matches(req.password, db.rows[FindByEmail(db.rows, req.email).value].password).Err? ==>
              r == Err(Reject(InternalServerError,
                              MatchingError + matches(req.password, db.rows[FindByEmail(db.rows, req.email).value].password).error))
  {
    match find
    case Down(e) => Err(Reject(InternalServerError, DatabaseError + e))
    case Up =>
      match FindByEmail(db.rows, req.email)
      case None => Err(Reject(Unauthorized, WrongCredentials))
      case Some(i) =>
        var user := db.rows[i];
        match matches(req.password, user.password)
        case Err(e) => Err(Reject(InternalServerError, MatchingError + e))
        case Ok(false) => Err(Reject(Unauthorized, WrongCredentials))
        case Ok(true) =>
          var userId := ShowNat(IdOf(i));
          var access := CreateJwt(iss, userId, user.role, AccessLifetime, now);
          var refresh := CreateJwt(iss, userId, user.role, RefreshLifetime, now);
          Ok(AuthResponse(access, refresh, TokenType))
  }

  // ---------------------------------------------------------------------------
  // logout

  /** `logout` gets as far as writing to the store. */
  predicate LogoutWrites(iss: Issuer, token: string, now: nat)
    requires iss.Ready()
  {
    VerifyJwt(iss, token, now).Ok? && VerifyJwt(iss, token, now).value.exp > now
  }

  /** `logout` at time `now`; `link` is the fate of the blacklist write. */
  function Logout(cache: Cache, iss: Issuer, token: string, now: nat, link: Link)
    : (r: (Result<StatusResponse, Rejection>, Cache))
    requires iss.Ready()
    requires LogoutWrites(iss, token, now) ==> cache.ready
    ensures VerifyJwt(iss, token, now).Err? ==>
              r == (Err(Reject(Unauthorized, InvalidToken + VerifyJwt(iss, token, now).error)), cache)
    ensures r.0.Ok? <==> VerifyJwt(iss, token, now).Ok? && (LogoutWrites(iss, token, now) ==> link.Up?)
    ensures r.0.Ok? ==> r.0.value == StatusResponse(true, LoggedOut)
    ensures LogoutWrites(iss, token, now) && link.Down? ==>
              r == (Err(Reject(InternalServerError, NotBlacklisted + link.reason)), cache)
    ensures r.0.Ok? && LogoutWrites(iss, token, now) ==>
              token in r.1.entries && r.1.entries[token] == Entry(Marker, VerifyJwt(iss, token, now).value.exp)
    ensures r.0.Err? ==> r.1 == cache
    ensures SameExcept(cache, r.1, token)
  {
    match VerifyJwt(iss, token, now)
    case Err(e) => (Err(Reject(Unauthorized, InvalidToken + e)), cache)
    case Ok(claims) =>
      var (outcome, cache') := BlacklistToken(cache, token, claims.exp, now, link);
      match outcome
      case Fail(e) => (Err(Reject(InternalServerError, NotBlacklisted + e)), cache')
      case Pass => (Ok(StatusResponse(true, LoggedOut)), cache')
  }

  // ---------------------------------------------------------------------------
  // refresh_token

  /** `refresh_token` at time `now`; `probe` is the fate of the blacklist
      lookup, `write` that of the blacklist write. The checks run in this
      order: verification, blacklist lookup, blacklisting the old token, and
      only then are the new tokens minted. */
  function RefreshToken(cache: Cache, iss: Issuer, token: string, now: nat, probe: Link, write: Link)
    : (r: (Result<AuthResponse, Rejection>, Cache))
    requires iss.Ready()
    requires VerifyJwt(iss, token, now).Ok? ==> cache.ready
    ensures VerifyJwt(iss, token, now).Err? ==> r == (Err(Reject(Unauthorized, InvalidRefresh)), cache)
    ensures VerifyJwt(iss, token, now).Ok? && probe.Down? ==>
              r == (Err(Reject(InternalServerError, BlacklistCheckFailed + probe.reason)), cache)
    ensures VerifyJwt(iss, token, now).Ok? && probe.Up? && Live(cache, token, now) ==>
              r == (Err(Reject(Unauthorized, RefreshBlacklisted)), cache)
    ensures VerifyJwt(iss, token, now).Ok? && probe.Up? && !Live(cache, token, now)
            && VerifyJwt(iss, token, now).value.exp > now && write.Down? ==>
              r == (Err(Reject(InternalServerError, RotationFailed + write.reason)), cache)
    ensures r.0.Ok? <==> VerifyJwt(iss, token, now).Ok? && probe.Up? && !Live(cache, token, now)
                         && (VerifyJwt(iss, token, now).value.exp > now ==> write.Up?)
    ensures r.0.Ok? && RoundTrips(iss.codec) ==>
              var claims := VerifyJwt(iss, token, now).value;
              IssuedPair(iss, r.0.value, claims.id, claims.role, now)
    ensures r.0.Ok? && VerifyJwt(iss, token, now).value.exp > now ==>
              token in r.1.entries && r.1.entries[token] == Entry(Marker, VerifyJwt(iss, token, now).value.exp)
    ensures r.0.Err? ==> r.1 == cache
    ensures SameExcept(cache, r.1, token)
  {
    match VerifyJwt(iss, token, now)
    case Err(_) => (Err(Reject(Unauthorized, InvalidRefresh)), cache)
    case Ok(claims) =>
      match KeyExists(cache, token, now, probe)
      case Err(e) => (Err(Reject(InternalServerError, BlacklistCheckFailed + e)), cache)
      case Ok(true) => (Err(Reject(Unauthorized, RefreshBlacklisted)), cache)
      case Ok(false) =>
        var (outcome, cache') := BlacklistToken(cache, token, claims.exp, now, write);
        match outcome
        case Fail(e) => (Err(Reject(InternalServerError, RotationFailed + e)), cache')
        case Pass =>
          var access := CreateJwt(iss, claims.id, claims.role, AccessLifetime, now);
          var refresh := CreateJwt(iss, claims.id, claims.role, RefreshLifetime, now);
          (Ok(AuthResponse(access, refresh, TokenType)), cache')
  }

  // ---------------------------------------------------------------------------
  // verify_email

  /** The user id an email-verification token names at time `now`: `None`
      when the token does not verify or its id is not an `i32`. */
  function ClaimedId(iss: Issuer, token: string, now: nat): Option<int>
    requires iss.Ready()
  {
    match VerifyEmailJwt(iss, token, now)
    case Err(_) => None
    case Ok(claims) => ParseI32(claims.id)
  }

  /** The row of the user a verification token names, when there is one. */
  function ClaimedRow(db: Db, iss: Issuer, token: string, now: nat): (r: Option<nat>)
    requires iss.Ready()
    ensures r.Some? ==> r.value < |db.rows|
  {
    match ClaimedId(iss, token, now)
    case None => None
    case Some(id) => FindById(db, id)
  }

  /** `verify_email` at time `now`; `find` and `save` are the fates of the
      lookup and the update. Only `email_verified_at` of the one row changes. */
  function VerifyEmail(db: Db, iss: Issuer, token: string, now: nat, find: Link, save: Link)
    : (r: (Result<StatusResponse, Rejection>, Db))
    requires iss.Ready()
    ensures VerifyEmailJwt(iss, token, now).Err? ==>
              r == (Err(Reject(BadRequest, InvalidVerification + VerifyEmailJwt(iss, token, now).error)), db)
    ensures VerifyEmailJwt(iss, token, now).Ok? && ClaimedId(iss, token, now).None? ==>
              r == (Err(Reject(BadRequest, InvalidUserId)), db)
    ensures ClaimedId(iss, token, now).Some? && find.Down? ==>
              r == (Err(Reject(InternalServerError, DatabaseError + find.reason)), db)
    ensures ClaimedId(iss, token, now).Some? && find.Up? && ClaimedRow(db, iss, token, now).None? ==>
              r == (Err(Reject(NotFound, UserNotFound)), db)
    ensures find.Up? && ClaimedRow(db, iss, token, now).Some?
            && db.rows[ClaimedRow(db, iss, token, now).value].emailVerifiedAt.Some? ==>
              r == (Err(Reject(BadRequest, AlreadyVerified)), db)
    ensures find.Up? && ClaimedRow(db, iss, token, now).Some?
            && db.rows[ClaimedRow(db, iss, token, now).value].emailVerifiedAt.None? && save.Down? ==>
              r == (Err(Reject(InternalServerError, VerifyUpdateFailed + save.reason)), db)
    ensures r.0.Err? && r.0.error.status == NotFound ==> r.0.error == Reject(NotFound, UserNotFound)
    ensures r.0.Err? ==> r.1 == db
    ensures r.0.Ok? ==> r.0.value == StatusResponse(true, EmailVerified)
    ensures r.0.Ok? <==> && find.Up? && save.Up?
                         && ClaimedRow(db, iss, token, now).Some?
                         && db.rows[ClaimedRow(db, iss, token, now).value].emailVerifiedAt.None?
    ensures r.0.Ok? ==>
              var i := ClaimedRow(db, iss, token, now).value;
              && IdOf(i) == ClaimedId(iss, token, now).value
              && r.1 == Db(db.rows[i := db.rows[i].(emailVerifiedAt := Some(now))])
  {
    match VerifyEmailJwt(iss, token, now)
    case Err(e) => (Err(Reject(BadRequest, InvalidVerification + e)), db)
    case Ok(claims) =>
      match ParseI32(claims.id)
      case None => (Err(Reject(BadRequest, InvalidUserId)), db)
      case Some(id) =>
        match find
        case Down(e) => (Err(Reject(InternalServerError, DatabaseError + e)), db)
        case Up =>
          match FindById(db, id)
          case None => (Err(Reject(NotFound, UserNotFound)), db)
          case Some(i) =>
            if db.rows[i].emailVerifiedAt.Some? then
              (Err(Reject(BadRequest, AlreadyVerified)), db)
            else
              match save
              case Down(e) => (Err(Reject(InternalServerError, VerifyUpdateFailed + e)), db)
              case Up =>
                (Ok(StatusResponse(true, EmailVerified)),
                 Db(db.rows[i := db.rows[i].(emailVerifiedAt := Some(now))]))
  }
}

=== FILE: blacklist.dfy ===
/** The token blacklist of `src/config/blacklist.rs`: a revoked token is a
    store key whose entry lives exactly as long as the token itself. */
module Blacklist {
  import opened Prelude
  import opened Redis

  /** The value written under a revoked token. */
  const Marker: string := "blacklisted"

  /** The message both the admin guard and the refresh handler give when the
      blacklist cannot be consulted. */
  const BlacklistCheckFailed: string := "Failed to check token blacklist: "

  /** `blacklist_token(token, exp)` at time `now`. The remaining lifetime
      `exp - now` is computed first; only a positive one leads to a write (and
      so to `get_cache`), otherwise the call does nothing and succeeds. */
  function BlacklistToken(c: Cache, token: string, exp: nat, now: nat, link: Link): (r: (Outcome<string>, Cache))
    requires exp > now ==> c.ready
    ensures exp <= now ==> r == (Pass, c)
    ensures exp > now ==> (r.0.Pass? <==> link.Up?)
    ensures exp > now && link.Up? ==> token in r.1.entries && r.1.entries[token] == Entry(Marker, exp)
    ensures exp > now && link.Down? ==> r == (Fail(link.reason), c)
    ensures SameExcept(c, r.1, token)
  {
    var ttl: int := exp - now;
    if ttl > 0 then SetValue(c, token, Marker, ttl, now, link) else (Pass, c)
  }

  /** `is_blacklisted(token)` at time `now`: whether any value is stored
      under the token, whatever that value is. */
  function IsBlacklisted(c: Cache, token: string, now: nat, link: Link): (r: Result<bool, string>)
    requires c.ready
    ensures r.Ok? <==> link.Up?
    ensures r.Ok? ==> (r.value <==> Live(c, token, now))
    ensures link.Down? ==> r == Err(link.reason)
  {
    match GetValue(c, token, now, link)
    case Err(e) => Err(e)
    case Ok(v) => Ok(v.Some?)
  }

  /** `remove_from_blacklist(token)`. */
  function RemoveFromBlacklist(c: Cache, token: string, link: Link): (r: (Outcome<string>, Cache))
    requires c.ready
    ensures r.0.Pass? <==> link.Up?
    ensures r.0.Pass? ==> r.1.ready && forall t: nat :: IsBlacklisted(r.1, token, t, Up) == Ok(false)
    ensures r.0.Fail? ==> r == (Fail(link.reason), c)
    ensures SameExcept(c, r.1, token)
  {
    DeleteKey(c, token, link)
  }

  /** After a successful `blacklist_token` with `exp > now`, the token reads
      as blacklisted from `now` until just before `exp`, and not from `exp` on. */
  lemma {:induction false} BlacklistedUntilExp(c: Cache, token: string, exp: nat, now: nat, later: nat)
    requires c.ready && now < exp && now <= later
    ensures var c' := BlacklistToken(c, token, exp, now, Up).1;
      IsBlacklisted(c', token, later, Up) == Ok(later < exp)
  {
    var c' := BlacklistToken(c, token, exp, now, Up).1;
    assert c'.entries[token].expiresAt == exp;
  }

  /** The entry's expiry is `exp` whenever it is written, so blacklisting the
      same token again, at the same time or later, leaves the store as the
      first call left it. */
  lemma {:induction false} BlacklistIdempotent(c: Cache, token: string, exp: nat, now: nat, later: nat)
    requires c.ready && now <= later
    ensures var c1 := BlacklistToken(c, token, exp, now, Up);
      && c1.0 == Pass
      && BlacklistToken(c1.1, token, exp, later, Up) == (Pass, c1.1)
  {
    var c1 := BlacklistToken(c, token, exp, now, Up);
    if exp > later {
      assert c1.1.entries[token] == Entry(Marker, exp);
      assert c1.1.entries[token := Entry(Marker, exp)] == c1.1.entries;
    }
  }

  /** Any value stored under a token makes it read as blacklisted, not only
      the marker. */
  lemma AnyValueBlacklists(c: Cache, token: string, value: string, ttl: nat, now: nat)
    requires c.ready && ttl > 0
    ensures IsBlacklisted(SetValue(c, token, value, ttl, now, Up).1, token, now, Up) == Ok(true)
  {
  }
}

=== FILE: http.dfy ===
/** The error responses of the handlers and guards: a status code and, for
    every response but a bare status, the message of the JSON body
    `{status: false, message}`. */
module Http {
  import opened Prelude

  /** The statuses the handlers and guards answer with: 400, 401, 403, 404,
      409 and 500. */
  datatype Status = BadRequest | Unauthorized | Forbidden | NotFound | Conflict | InternalServerError

  datatype Rejection = Rejection(status: Status, message: Option<string>)

  /** An error response with a JSON body carrying `message`. */
  function Reject(status: Status, message: string): Rejection {
    Rejection(status, Some(message))
  }
}

=== FILE: jwt.dfy ===
/** The token codec of `src/config/jwt.rs`: a secret installed once at start-up,
    `create_jwt` and `verify_jwt`, and the email-verification pair of functions
    the controller imports next to them.

    Signing, base64 and JSON are one abstract `Codec`: a pair of functions
    whose only promise, `RoundTrips`, is that decoding what was encoded with
    the same secret gives the claims back. Verification is decoding followed by
    the expiry check of the library's default validation, whose leeway is a
    parameter. */
module Jwt {
  import opened Prelude

  type Secret = string

  /** The claims `create_jwt` signs: `id` and `sub` both carry the user id. */
  datatype Claims = Claims(id: string, sub: string, role: string, exp: nat)

  /** The two roles the application issues tokens for. */
  const AdminRole: string := "Admin"
  const UserRole: string := "User"

  /** The claims of an email-verification token: a user id and an expiry, no role. */
  datatype EmailClaims = EmailClaims(id: string, exp: nat)

  /** Signing and decoding with a secret. `decode` fails, with the library's
      description of why, on a bad signature or a string of the wrong shape. */
  datatype Codec<!C> = Codec(encode: (Secret, C) -> string, decode: (Secret, string) -> Result<C, string>)

  /** The only property of the cryptography the model relies on. */
  ghost predicate RoundTrips<C(!new)>(codec: Codec<C>) {
    forall k: Secret, c: C :: codec.decode(k, codec.encode(k, c)) == Ok(c)
  }

  /** The expiry rule of the library's default validation: a token is
      rejected once its `exp` lies more than `leeway` seconds in the past. */
  datatype Validation = Validation(leeway: nat)

  predicate Expired(v: Validation, exp: nat, now: nat) {
    exp + v.leeway < now
  }

  /** The library's description of the expiry error. */
  const ExpiredSignature: string := "ExpiredSignature"

  /** Everything a handler needs to issue and check tokens. `secret` is the
      process-wide key cell; `None` until `InitKeys` succeeds. */
  datatype Issuer = Issuer(
    codec: Codec<Claims>,
    emailCodec: Codec<EmailClaims>,
    secret: Option<Secret>,
    validation: Validation)
  {
    predicate Ready() { secret.Some? }
  }

  // ---------------------------------------------------------------------------
  // init_keys

  const SecretMissing: string := "JWT_SECRET must be set"

  /** `init_keys` reads `JWT_SECRET` (`env`, `None` when unset) and installs it
      unless a secret is already installed; a second installation is silently
      ignored, as `OnceCell::set(..).ok()` does. */
  function InitKeys(installed: Option<Secret>, env: Option<string>): (r: (Outcome<string>, Option<Secret>))
    ensures r.0 == Fail(SecretMissing) <==> env.None?
    ensures r.0.Pass? <==> env.Some?
    ensures r.0.Fail? ==> r.1 == installed
    ensures installed.Some? ==> r.1 == installed
    ensures r.1.Some? <==> installed.Some? || env.Some?
  {
    match env
    case None => (Fail(SecretMissing), installed)
    case Some(s) => (Pass, if installed.Some? then installed else Some(s))
  }

  /** The secret in force after a series of start-up calls, each reading the
      environment afresh. */
  function InitKeysAll(installed: Option<Secret>, envs: seq<Option<string>>): Option<Secret>
    decreases |envs|
  {
    if envs == [] then installed else InitKeysAll(InitKeys(installed, envs[0]).1, envs[1..])
  }

  /** The first secret any call saw, if there was one. */
  function FirstSecret(envs: seq<Option<string>>): Option<string>
    decreases |envs|
  {
    if envs == [] then None else if envs[0].Some? then envs[0] else FirstSecret(envs[1..])
  }

  /** Keys are set at most once: whatever the later calls read, the secret in
      force is the first one ever installed. */
  lemma {:induction false} InitKeysKeepsFirst(installed: Option<Secret>, envs: seq<Option<string>>)
    ensures installed.Some? ==> InitKeysAll(installed, envs) == installed
    ensures installed.None? ==> InitKeysAll(installed, envs) == FirstSecret(envs)
    decreases |envs|
  {
    if envs != [] {
      InitKeysKeepsFirst(InitKeys(installed, envs[0]).1, envs[1..]);
    }
  }

  // ---------------------------------------------------------------------------
  // create_jwt / verify_jwt

  /** `create_jwt(user_id, role, exp_seconds)` at time `now`. Calling it before
      the keys are installed panics, so readiness is a precondition. */
  function CreateJwt(iss: Issuer, userId: string, role: string, expSeconds: nat, now: nat): (token: string)
    requires iss.Ready()
    ensures RoundTrips(iss.codec) ==>
      iss.codec.decode(iss.secret.value, token) == Ok(Claims(userId, userId, role, now + expSeconds))
  {
    iss.codec.encode(iss.secret.value, Claims(userId, userId, role, now + expSeconds))
  }

  /** `verify_jwt(token)` at time `now`: the decoded claims, unless decoding
      fails or they have expired. */
  function VerifyJwt(iss: Issuer, token: string, now: nat): (r: Result<Claims, string>)
    requires iss.Ready()
    ensures r.Ok? <==> iss.codec.decode(iss.secret.value, token).Ok?
                       && !Expired(iss.validation, iss.codec.decode(iss.secret.value, token).value.exp, now)
    ensures r.Ok? ==> iss.codec.decode(iss.secret.value, token) == Ok(r.value)
    ensures r.Ok? ==> !Expired(iss.validation, r.value.exp, now)
    ensures r.Err? && iss.codec.decode(iss.secret.value, token).Ok? ==> r.error == ExpiredSignature
  {
    match iss.codec.decode(iss.secret.value, token)
    case Err(e) => Err(e)
    case Ok(c) => if Expired(iss.validation, c.exp, now) then Err(ExpiredSignature) else Ok(c)
  }

  /** Round trip: a freshly created token verifies to the claims it was made
      from exactly while `now + expSeconds` plus the leeway has not passed, and
      is reported expired afterwards. */
  lemma VerifyCreated(iss: Issuer, userId: string, role: string, expSeconds: nat, now: nat, later: nat)
    requires iss.Ready() && RoundTrips(iss.codec)
    ensures later <= now + expSeconds + iss.validation.leeway ==>
      VerifyJwt(iss, CreateJwt(iss, userId, role, expSeconds, now), later)
        == Ok(Claims(userId, userId, role, now + expSeconds))
    ensures later > now + expSeconds + iss.validation.leeway ==>
      VerifyJwt(iss, CreateJwt(iss, userId, role, expSeconds, now), later) == Err(ExpiredSignature)
  {
  }

  /** A token that verifies at some time also verifies at every earlier time. */
  lemma VerifyEarlier(iss: Issuer, token: string, earlier: nat, now: nat)
    requires iss.Ready() && earlier <= now
    requires VerifyJwt(iss, token, now).Ok?
    ensures VerifyJwt(iss, token, earlier) == VerifyJwt(iss, token, now)
  {
  }

  /** A token verifies at time `now` when it decodes to claims whose expiry has
      not passed `now` yet. */
  lemma VerifyBeforeExpiry(iss: Issuer, token: string, c: Claims, now: nat)
    requires iss.Ready()
    requires iss.codec.decode(iss.secret.value, token) == Ok(c) && now <= c.exp
    ensures VerifyJwt(iss, token, now) == Ok(c)
  {
  }

  // ---------------------------------------------------------------------------
  // Email verification tokens

  /** `create_email_verification_jwt(user_id, exp_seconds)` at time `now`. */
  function CreateEmailJwt(iss: Issuer, userId: string, expSeconds: nat, now: nat): (token: string)
    requires iss.Ready()
    ensures RoundTrips(iss.emailCodec) ==>
      iss.emailCodec.decode(iss.secret.value, token) == Ok(EmailClaims(userId, now + expSeconds))
  {
    iss.emailCodec.encode(iss.secret.value, EmailClaims(userId, now + expSeconds))
  }

  /** `verify_email_verification_jwt(token)` at time `now`. */
  function VerifyEmailJwt(iss: Issuer, token: string, now: nat): (r: Result<EmailClaims, string>)
    requires iss.Ready()
    ensures r.Ok? <==> iss.emailCodec.decode(iss.secret.value, token).Ok?
                       && !Expired(iss.validation, iss.emailCodec.decode(iss.secret.value, token).value.exp, now)
    ensures r.Ok? ==> iss.emailCodec.decode(iss.secret.value, token) == Ok(r.value)
    ensures r.Ok? ==> !Expired(iss.validation, r.value.exp, now)
    ensures r.Err? && iss.emailCodec.decode(iss.secret.value, token).Ok? ==> r.error == ExpiredSignature
  {
    match iss.emailCodec.decode(iss.secret.value, token)
    case Err(e) => Err(e)
    case Ok(c) => if Expired(iss.validation, c.exp, now) then Err(ExpiredSignature) else Ok(c)
  }

  /** Round trip for email-verification tokens. */
  lemma VerifyEmailCreated(iss: Issuer, userId: string, expSeconds: nat, now: nat, later: nat)
    requires iss.Ready() && RoundTrips(iss.emailCodec)
    ensures later <= now + expSeconds + iss.validation.leeway ==>
      VerifyEmailJwt(iss, CreateEmailJwt(iss, userId, expSeconds, now), later)
        == Ok(EmailClaims(userId, now + expSeconds))
    ensures later > now + expSeconds + iss.validation.leeway ==>
      VerifyEmailJwt(iss, CreateEmailJwt(iss, userId, expSeconds, now), later) == Err(ExpiredSignature)
  {
  }
}

=== FILE: middleware.dfy ===
/** The four request guards of `src/app/middleware/`, each a decision from the
    request's `Authorization` header (and, where the guard consults them, the
    token codec and the store) to "pass the request on" or an error response. */
module Middleware {
  import opened Prelude
  import opened Jwt
  import opened Redis
  import opened Blacklist
  import opened Http
  import opened AuthBearer

  const Blacklisted: string := "This token has been blacklisted."
  const AdminsOnly: string := "Access denied. Only administrators can view this page."
  const CustomersOnly: string := "Access denied. Only customers can view this page."
  const AlreadyLoggedIn: string := "Access denied. You are already logged in."

  /** The token in the header verifies at `now`. */
  predicate Verifies(header: Option<seq<Byte>>, iss: Issuer, now: nat)
    requires ReadBearer(header).Bearer? ==> iss.Ready()
  {
    ReadBearer(header).Bearer? && VerifyJwt(iss, ReadBearer(header).token, now).Ok?
  }

  /** The role claimed by a token that verifies. */
  function RoleOf(header: Option<seq<Byte>>, iss: Issuer, now: nat): string
    requires ReadBearer(header).Bearer? && iss.Ready() && Verifies(header, iss, now)
  {
    VerifyJwt(iss, ReadBearer(header).token, now).value.role
  }

  /** `admin_auth_middleware` at time `now`; `link` is the fate of the one
      blacklist lookup. The codec and the store are only required to be
      initialised when the guard gets as far as using them. Checks, in order: header present and valid text,
      bearer prefix, signature and expiry, blacklist (failing closed when the
      store cannot be asked), role "Admin". */
  function AdminAuth(header: Option<seq<Byte>>, iss: Issuer, cache: Cache, now: nat, link: Link): (r: Outcome<Rejection>)
    requires ReadBearer(header).Bearer? ==> iss.Ready()
    requires Verifies(header, iss, now) ==> cache.ready
    ensures r.Pass? <==> Verifies(header, iss, now) && link.Up?
                         && !Live(cache, ReadBearer(header).token, now)
                         && RoleOf(header, iss, now) == AdminRole
    ensures ReadBearer(header).Missing? ==> r == Fail(Reject(Unauthorized, HeaderMissing))
    ensures ReadBearer(header).NotBearer? ==> r == Fail(Reject(Unauthorized, BearerExpected))
    ensures ReadBearer(header).Bearer? && !Verifies(header, iss, now) ==>
              r == Fail(Reject(Unauthorized, InvalidOrExpired + VerifyJwt(iss, ReadBearer(header).token, now).error))
    ensures Verifies(header, iss, now) && link.Down? ==> r == Fail(Reject(InternalServerError, BlacklistCheckFailed + link.reason))
    ensures Verifies(header, iss, now) && link.Up? && Live(cache, ReadBearer(header).token, now) ==>
              r == Fail(Reject(Unauthorized, Blacklisted))
    ensures Verifies(header, iss, now) && link.Up? && !Live(cache, ReadBearer(header).token, now)
            && RoleOf(header, iss, now) != AdminRole ==>
              r == Fail(Reject(Forbidden, AdminsOnly))
    ensures r.Fail? && r.error.status == Forbidden ==>
              Verifies(header, iss, now) && link.Up? && !Live(cache, ReadBearer(header).token, now)
              && r.error == Reject(Forbidden, AdminsOnly)
  {
    match ReadBearer(header)
    case Missing => Fail(Reject(Unauthorized, HeaderMissing))
    case NotBearer => Fail(Reject(Unauthorized, BearerExpected))
    case Bearer(token) =>
      match VerifyJwt(iss, token, now)
      case Err(e) => Fail(Reject(Unauthorized, InvalidOrExpired + e))
      case Ok(claims) =>
        match IsBlacklisted(cache, token, now, link)
        case Err(e) => Fail(Reject(InternalServerError, BlacklistCheckFailed + e))
        case Ok(true) => Fail(Reject(Unauthorized, Blacklisted))
        case Ok(false) =>
          if claims.role != AdminRole then Fail(Reject(Forbidden, AdminsOnly)) else Pass
  }

  /** `customer_auth_middleware` at time `now`. It never consults the store:
      there is no store among its inputs. Checks, in order: header, bearer
      prefix, signature and expiry, role "User". */
  function CustomerAuth(header: Option<seq<Byte>>, iss: Issuer, now: nat): (r: Outcome<Rejection>)
    requires ReadBearer(header).Bearer? ==> iss.Ready()
    ensures r.Pass? <==> Verifies(header, iss, now) && RoleOf(header, iss, now) == UserRole
    ensures ReadBearer(header).Missing? ==> r == Fail(Reject(Unauthorized, HeaderMissing))
    ensures ReadBearer(header).NotBearer? ==> r == Fail(Reject(Unauthorized, BearerExpected))
    ensures !Verifies(header, iss, now) ==> r.Fail? && r.error.status == Unauthorized
    ensures ReadBearer(header).Bearer? && !Verifies(header, iss, now) ==>
              r == Fail(Reject(Unauthorized, InvalidOrExpired + VerifyJwt(iss, ReadBearer(header).token, now).error))
    ensures Verifies(header, iss, now) && RoleOf(header, iss, now) != UserRole ==>
              r == Fail(Reject(Forbidden, CustomersOnly))
  {
    match ReadBearer(header)
    case Missing => Fail(Reject(Unauthorized, HeaderMissing))
    case NotBearer => Fail(Reject(Unauthorized, BearerExpected))
    case Bearer(token) =>
      match VerifyJwt(iss, token, now)
      case Err(e) => Fail(Reject(Unauthorized, InvalidOrExpired + e))
      case Ok(claims) =>
        if claims.role != UserRole then Fail(Reject(Forbidden, CustomersOnly)) else Pass
  }

  /** `admin_guest_middleware` at time `now`: turns away a request that carries
      a bearer token which verifies and is not known to be blacklisted. A
      failed blacklist lookup counts as "not blacklisted". Everything else
      passes, whatever the token's role. */
  function AdminGuest(header: Option<seq<Byte>>, iss: Issuer, cache: Cache, now: nat, link: Link): (r: Outcome<Rejection>)
    requires ReadBearer(header).Bearer? ==> iss.Ready() && cache.ready
    ensures r.Fail? <==> Verifies(header, iss, now) && !(link.Up? && Live(cache, ReadBearer(header).token, now))
    ensures r.Fail? ==> r.error == Reject(Forbidden, AlreadyLoggedIn)
  {
    match ReadBearer(header)
    case Bearer(token) =>
      var isValid := VerifyJwt(iss, token, now).Ok?;
      var isBlacklisted := match IsBlacklisted(cache, token, now, link)
        case Ok(b) => b
        case Err(_) => false;
      if isValid && !isBlacklisted then Fail(Reject(Forbidden, AlreadyLoggedIn)) else Pass
    case _ => Pass
  }

  /** `customer_guest_middleware`: any `Authorization` header at all, readable
      or not, is answered with a bare 403. */
  function CustomerGuest(header: Option<seq<Byte>>): (r: Outcome<Rejection>)
    ensures r.Fail? <==> header.Some?
    ensures r.Fail? ==> r.error == Rejection(Forbidden, None)
  {
    if header.Some? then Fail(Rejection(Forbidden, None)) else Pass
  }
}

=== FILE: prelude.dfy ===
/** Small shared vocabulary: optional values, results, outcomes, bytes and the
    outcome of one round trip to an external service. */
module Prelude {

  datatype Option<+T> = None | Some(value: T)

  /** A value or an error, as Rust's `Result<T, E>`. */
  datatype Result<+T, +E> = Ok(value: T) | Err(error: E)

  /** A result that carries no value: the `Result<(), E>` of the source. */
  datatype Outcome<+E> = Pass | Fail(error: E)

  type Byte = b: int | 0 <= b < 256

  /** Whether one round trip to an external service (the key/value store, the
      database, the message queue) gets an answer. The environment decides;
      `reason` is the library's description of the failure. */
  datatype Link = Up | Down(reason: string)
}

=== FILE: redis.dfy ===
/** The key/value store wrapper of `src/config/redis.rs` as an abstract map
    from key to value and absolute expiry time.

    Every operation is one round trip whose fate the environment decides
    (`Link`); a failed round trip changes nothing. Every operation goes through
    `get_cache`, which panics before `init_cache` has run, so each one requires
    an initialised cache. */
module Redis {
  import opened Prelude

  /** A stored value and the second at which the store drops it. */
  datatype Entry = Entry(value: string, expiresAt: nat)

  datatype Cache = Cache(ready: bool, entries: map<string, Entry>)

  /** The store holds `key` at time `now`: the entry exists and has not expired. */
  predicate Live(c: Cache, key: string, now: nat) {
    key in c.entries && now < c.entries[key].expiresAt
  }

  /** All keys other than `key` read the same in both caches, at every time. */
  ghost predicate SameExcept(c: Cache, c': Cache, key: string) {
    && (forall k :: k != key ==> (k in c.entries <==> k in c'.entries))
    && (forall k :: k != key && k in c.entries && k in c'.entries ==> c'.entries[k] == c.entries[k])
  }

  const InvalidUrl: string := "Invalid Redis URL: "
  const ConnectFailure: string := "Failed to connect to Redis/KeyDB: "

  /** `init_cache`: `url` is the fate of parsing the URL (`Client::open`),
      `link` that of opening the connection. On success the connection is
      installed unless one already is. The store's contents are not ours to
      change. */
  function InitCache(c: Cache, url: Link, link: Link): (r: (Outcome<string>, Cache))
    ensures r.0.Pass? <==> url.Up? && link.Up?
    ensures r.0.Pass? ==> r.1.ready
    ensures r.1.entries == c.entries
    ensures url.Down? ==> r == (Fail(InvalidUrl + url.reason), c)
    ensures url.Up? && link.Down? ==> r == (Fail(ConnectFailure + link.reason), c)
  {
    match url
    case Down(e) => (Fail(InvalidUrl + e), c)
    case Up =>
      match link
      case Down(e) => (Fail(ConnectFailure + e), c)
      case Up => (Pass, c.(ready := true))
  }

  /** The server's refusal of `SETEX` with a zero expiry. */
  const InvalidExpire: string := "invalid expire time in 'setex' command"

  /** `set_value(key, value, ttl_seconds)` at time `now` (`SETEX`). */
  function SetValue(c: Cache, key: string, value: string, ttl: nat, now: nat, link: Link): (r: (Outcome<string>, Cache))
    requires c.ready
    ensures r.0.Pass? <==> link.Up? && ttl > 0
    ensures r.0.Fail? ==> r.1 == c
    ensures r.0.Pass? ==> r.1.ready && key in r.1.entries && r.1.entries[key] == Entry(value, now + ttl)
    ensures SameExcept(c, r.1, key)
  {
    match link
    case Down(e) => (Fail(e), c)
    case Up =>
      if ttl == 0 then (Fail(InvalidExpire), c)
      else (Pass, c.(entries := c.entries[key := Entry(value, now + ttl)]))
  }

  /** `get_value(key)` at time `now`. */
  function GetValue(c: Cache, key: string, now: nat, link: Link): (r: Result<Option<string>, string>)
    requires c.ready
    ensures r.Ok? <==> link.Up?
    ensures r.Ok? ==> (r.value.Some? <==> Live(c, key, now))
    ensures r.Ok? && r.value.Some? ==> r.value.value == c.entries[key].value
  {
    match link
    case Down(e) => Err(e)
    case Up => Ok(if Live(c, key, now) then Some(c.entries[key].value) else None)
  }

  /** `delete_key(key)` (`DEL`). */
  function DeleteKey(c: Cache, key: string, link: Link): (r: (Outcome<string>, Cache))
    requires c.ready
    ensures r.0.Pass? <==> link.Up?
    ensures r.0.Fail? ==> r.1 == c
    ensures r.0.Pass? ==> r.1.ready && key !in r.1.entries
    ensures SameExcept(c, r.1, key)
  {
    match link
    case Down(e) => (Fail(e), c)
    case Up => (Pass, c.(entries := c.entries - {key}))
  }

  /** `key_exists(key)` at time `now` (`EXISTS`). */
  function KeyExists(c: Cache, key: string, now: nat, link: Link): (r: Result<bool, string>)
    requires c.ready
    ensures r.Ok? <==> link.Up?
    ensures r.Ok? ==> (r.value <==> Live(c, key, now))
  {
    match link
    case Down(e) => Err(e)
    case Up => Ok(Live(c, key, now))
  }

  /** `key_exists` answers yes exactly when `get_value` finds a value. */
  lemma ExistsIffGet(c: Cache, key: string, now: nat)
    requires c.ready
    ensures KeyExists(c, key, now, Up) == Ok(GetValue(c, key, now, Up).value.Some?)
  {
  }

  /** After `set_value(key, v, ttl)` the key reads back as `v` until `ttl`
      seconds have elapsed and is gone from then on; every other key reads as
      before. */
  lemma {:induction false} GetAfterSet(c: Cache, key: string, value: string, ttl: nat, now: nat, later: nat, other: string)
    requires c.ready && ttl > 0 && now <= later && other != key
    ensures var c' := SetValue(c, key, value, ttl, now, Up).1;
      && GetValue(c', key, later, Up) == Ok(if later < now + ttl then Some(value) else None)
      && GetValue(c', other, later, Up) == GetValue(c, other, later, Up)
  {
    var c' := SetValue(c, key, value, ttl, now, Up).1;
    assert c'.entries[key] == Entry(value, now + ttl);
    assert (other in c'.entries) == (other in c.entries);
  }

  /** After `delete_key(key)` the key is absent for `get_value` and
      `key_exists` alike, at any time; every other key reads as before. */
  lemma {:induction false} AbsentAfterDelete(c: Cache, key: string, later: nat, other: string)
    requires c.ready && other != key
    ensures var c' := DeleteKey(c, key, Up).1;
      && GetValue(c', key, later, Up) == Ok(None)
      && KeyExists(c', key, later, Up) == Ok(false)
      && GetValue(c', other, later, Up) == GetValue(c, other, later, Up)
  {
    var c' := DeleteKey(c, key, Up).1;
    assert key !in c'.entries;
    assert (other in c'.entries) == (other in c.entries);
  }
}

=== FILE: sessions.dfy ===
/** Properties of whole sessions: what one handler leaves in the store or the
    users table, and how the next handler or guard then decides. */
module Sessions {
  import opened Prelude
  import opened Text
  import opened Jwt
  import opened Redis
  import opened Blacklist
  import opened Http
  import opened AuthBearer
  import opened Middleware
  import opened AuthController

  // ---------------------------------------------------------------------------
  // Revocation and the guards

  /** A token that was logged out is refused by the admin guard from then on
      until its `exp`, even though its signature and expiry still check out;
      if the store cannot be asked, the guard refuses as well. */
  lemma {:induction false} LogoutRevokesForAdminGate(cache: Cache, iss: Issuer, token: string, header: Option<seq<Byte>>,
                                                   now: nat, later: nat, link: Link)
    requires iss.Ready() && cache.ready && ReadBearer(header) == Bearer(token)
    requires Logout(cache, iss, token, now, Up).0.Ok?
    requires now <= later < VerifyJwt(iss, token, now).value.exp
    ensures var cache' := Logout(cache, iss, token, now, Up).1;
      && AdminAuth(header, iss, cache', later, Up) == Fail(Reject(Unauthorized, Blacklisted))
      && AdminAuth(header, iss, cache', later, link).Fail?
  {
    var claims := VerifyJwt(iss, token, now).value;
    var cache' := Logout(cache, iss, token, now, Up).1;
    VerifyBeforeExpiry(iss, token, claims, later);
    assert cache'.entries[token] == Entry(Marker, claims.exp);
    assert Live(cache', token, later);
  }

  /** The blacklist entry lapses at `exp`, but verification accepts the token
      up to `exp + leeway` inclusive: from `exp` to `exp + leeway` (a
      non-empty range even with no leeway), a logged-out admin token passes
      the admin guard again. */
  lemma {:induction false} RevokedTokenAdmittedAfterEntryLapses(cache: Cache, iss: Issuer, token: string,
                                                              header: Option<seq<Byte>>, now: nat, later: nat)
    requires iss.Ready() && cache.ready && ReadBearer(header) == Bearer(token)
    requires token !in cache.entries
    requires Logout(cache, iss, token, now, Up).0.Ok?
    requires VerifyJwt(iss, token, now).value.role == AdminRole
    requires now <= later
    requires var exp := VerifyJwt(iss, token, now).value.exp; exp <= later <= exp + iss.validation.leeway
    ensures AdminAuth(header, iss, Logout(cache, iss, token, now, Up).1, later, Up) == Pass
  {
    var claims := VerifyJwt(iss, token, now).value;
    var cache' := Logout(cache, iss, token, now, Up).1;
    assert VerifyJwt(iss, token, later) == Ok(claims);
    assert !Live(cache', token, later);
  }

  /** The customer guard never looks at the blacklist: a logged-out "User"
      token keeps passing it for as long as the token verifies, while the
      admin guard refuses the same header as blacklisted. */
  lemma {:induction false} CustomerGateIgnoresLogout(cache: Cache, iss: Issuer, token: string, header: Option<seq<Byte>>,
                                                   now: nat, later: nat)
    requires iss.Ready() && cache.ready && ReadBearer(header) == Bearer(token)
    requires Logout(cache, iss, token, now, Up).0.Ok?
    requires VerifyJwt(iss, token, now).value.role == UserRole
    requires now <= later < VerifyJwt(iss, token, now).value.exp
    ensures CustomerAuth(header, iss, later) == Pass
    ensures AdminAuth(header, iss, Logout(cache, iss, token, now, Up).1, later, Up) == Fail(Reject(Unauthorized, Blacklisted))
  {
    var claims := VerifyJwt(iss, token, now).value;
    VerifyBeforeExpiry(iss, token, claims, later);
    LogoutRevokesForAdminGate(cache, iss, token, header, now, later, Up);
  }

  /** Logging out twice with the same token succeeds both times, and the
      second call leaves the store as the first one left it. */
  lemma {:induction false} LogoutIdempotent(cache: Cache, iss: Issuer, token: string, now: nat, later: nat)
    requires iss.Ready() && cache.ready && now <= later
    requires Logout(cache, iss, token, now, Up).0.Ok?
    requires VerifyJwt(iss, token, later).Ok?
    ensures var cache' := Logout(cache, iss, token, now, Up).1;
      Logout(cache', iss, token, later, Up) == (Ok(StatusResponse(true, LoggedOut)), cache')
  {
    var claims := VerifyJwt(iss, token, now).value;
    var cache' := Logout(cache, iss, token, now, Up).1;
    assert VerifyJwt(iss, token, later) == Ok(claims);
    BlacklistIdempotent(cache, token, claims.exp, now, later);
  }

  // ---------------------------------------------------------------------------
  // Refresh rotation

  /** A refresh token works once: after a successful rotation, presenting the
      same token again before its `exp` never yields new tokens, and with the
      store answering it is refused as blacklisted. */
  lemma {:induction false} RefreshIsSingleUse(cache: Cache, iss: Issuer, token: string, now: nat, later: nat,
                                            probe: Link, write: Link, probe2: Link, write2: Link)
    requires iss.Ready() && cache.ready
    requires RefreshToken(cache, iss, token, now, probe, write).0.Ok?
    requires now <= later < VerifyJwt(iss, token, now).value.exp
    ensures var cache' := RefreshToken(cache, iss, token, now, probe, write).1;
      var second := RefreshToken(cache', iss, token, later, probe2, write2);
      && second.0.Err?
      && (probe2.Up? ==> second == (Err(Reject(Unauthorized, RefreshBlacklisted)), cache'))
  {
    var claims := VerifyJwt(iss, token, now).value;
    var cache' := RefreshToken(cache, iss, token, now, probe, write).1;
    VerifyBeforeExpiry(iss, token, claims, later);
    assert cache'.entries[token] == Entry(Marker, claims.exp);
    assert Live(cache', token, later);
  }

  /** Once the blacklist entry has lapsed at `exp`, a rotated refresh token
      that still verifies (up to `exp + leeway`) rotates again. */
  lemma {:induction false} RefreshReusableAfterEntryLapses(cache: Cache, iss: Issuer, token: string, now: nat, later: nat)
    requires iss.Ready() && cache.ready && token !in cache.entries
    requires RefreshToken(cache, iss, token, now, Up, Up).0.Ok?
    requires now <= later
    requires var exp := VerifyJwt(iss, token, now).value.exp; exp <= later <= exp + iss.validation.leeway
    ensures RefreshToken(RefreshToken(cache, iss, token, now, Up, Up).1, iss, token, later, Up, Up).0.Ok?
  {
    var claims := VerifyJwt(iss, token, now).value;
    var cache' := RefreshToken(cache, iss, token, now, Up, Up).1;
    assert VerifyJwt(iss, token, later) == Ok(claims);
    assert !Live(cache', token, later);
  }

  /** Tokens carry no nonce and no issue time, so a refresh in the same second
      the refresh token was minted returns that very token as the "new" one,
      and it is already blacklisted: the client's next rotation is refused. */
  lemma {:induction false} SameSecondRefreshReturnsRevokedToken(cache: Cache, iss: Issuer, userId: string, role: string,
                                                              now: nat, later: nat)
    requires iss.Ready() && cache.ready && RoundTrips(iss.codec)
    requires var prev := CreateJwt(iss, userId, role, RefreshLifetime, now); prev !in cache.entries
    requires now <= later < now + RefreshLifetime
    ensures var prev := CreateJwt(iss, userId, role, RefreshLifetime, now);
      var first := RefreshToken(cache, iss, prev, now, Up, Up);
      && first.0.Ok?
      && first.0.value.refreshToken == prev
      && RefreshToken(first.1, iss, first.0.value.refreshToken, later, Up, Up).0
           == Err(Reject(Unauthorized, RefreshBlacklisted))
  {
    var prev := CreateJwt(iss, userId, role, RefreshLifetime, now);
    VerifyCreated(iss, userId, role, RefreshLifetime, now, now);
    var first := RefreshToken(cache, iss, prev, now, Up, Up);
    assert first.0.Ok?;
    RefreshIsSingleUse(cache, iss, prev, now, later, Up, Up, Up, Up);
  }

  /** Nothing distinguishes an access token from a refresh token: a login's
      one-hour access token is accepted by the refresh handler. */
  lemma {:induction false} AccessTokenRefreshes(db: Db, cache: Cache, iss: Issuer, matches: Matcher, req: LoginRequest,
                                              now: nat, later: nat)
    requires iss.Ready() && cache.ready && RoundTrips(iss.codec)
    requires Login(db, iss, matches, req, now, Up).Ok?
    requires Login(db, iss, matches, req, now, Up).value.accessToken !in cache.entries
    requires now <= later <= now + AccessLifetime
    ensures RefreshToken(cache, iss, Login(db, iss, matches, req, now, Up).value.accessToken, later, Up, Up).0.Ok?
  {
    var access := Login(db, iss, matches, req, now, Up).value.accessToken;
    var claims := iss.codec.decode(iss.secret.value, access).value;
    VerifyBeforeExpiry(iss, access, claims, later);
  }

  // ---------------------------------------------------------------------------
  // Guards and their guest counterparts

  /** With the store answering, the admin guest guard turns a request away
      exactly when the admin guard would let it through or refuse it only for
      its role: the guest guard checks no role. */
  lemma AdminGuestComplementsAdminAuth(header: Option<seq<Byte>>, iss: Issuer, cache: Cache, now: nat)
    requires ReadBearer(header).Bearer? ==> iss.Ready() && cache.ready
    ensures AdminGuest(header, iss, cache, now, Up).Fail? <==>
              (AdminAuth(header, iss, cache, now, Up).Pass?
               || AdminAuth(header, iss, cache, now, Up) == Fail(Reject(Forbidden, AdminsOnly)))
    ensures AdminAuth(header, iss, cache, now, Up).Pass? ==> AdminGuest(header, iss, cache, now, Up).Fail?
  {
  }

  /** When the store cannot be asked, the admin guard refuses every request
      while the guest guard turns away every request whose token verifies. */
  lemma AdminGuardsWithStoreDown(header: Option<seq<Byte>>, iss: Issuer, cache: Cache, now: nat, reason: string)
    requires ReadBearer(header).Bearer? ==> iss.Ready() && cache.ready
    ensures AdminAuth(header, iss, cache, now, Down(reason)).Fail?
    ensures AdminGuest(header, iss, cache, now, Down(reason)).Fail? <==> Verifies(header, iss, now)
  {
  }

  /** The customer guest guard passes only requests without the header, and
      the customer guard refuses exactly those as missing the header. */
  lemma CustomerGuestComplementsCustomerAuth(header: Option<seq<Byte>>, iss: Issuer, now: nat)
    requires ReadBearer(header).Bearer? ==> iss.Ready()
    ensures CustomerGuest(header).Pass? ==> CustomerAuth(header, iss, now) == Fail(Reject(Unauthorized, HeaderMissing))
    ensures CustomerAuth(header, iss, now).Pass? ==> CustomerGuest(header).Fail?
  {
  }

  /** A login's access token for a user whose stored role is "User" is refused
      by the admin guard with 403, once it is past the blacklist check. */
  lemma {:induction false} UserTokenForbiddenAtAdminGate(db: Db, cache: Cache, iss: Issuer, matches: Matcher,
                                                       req: LoginRequest, k: nat, now: nat, later: nat)
    requires iss.Ready() && cache.ready && RoundTrips(iss.codec)
    requires HeaderSafe(iss.codec)
    requires Login(db, iss, matches, req, now, Up).Ok?
    requires db.rows[FindByEmail(db.rows, req.email).value].role == UserRole
    requires Login(db, iss, matches, req, now, Up).value.accessToken !in cache.entries
    requires now <= later <= now + AccessLifetime
    ensures var access := Login(db, iss, matches, req, now, Up).value.accessToken;
      AdminAuth(BearerHeader(access, k), iss, cache, later, Up) == Fail(Reject(Forbidden, AdminsOnly))
  {
    var i := FindByEmail(db.rows, req.email).value;
    var claims := Claims(ShowNat(IdOf(i)), ShowNat(IdOf(i)), UserRole, now + AccessLifetime);
    var access := Login(db, iss, matches, req, now, Up).value.accessToken;
    assert access == iss.codec.encode(iss.secret.value, claims);
    ReadBearerHeader(access, k);
    VerifyBeforeExpiry(iss, access, claims, later);
  }

  // ---------------------------------------------------------------------------
  // Registration

  /** Finding an email that only the appended row has. */
  lemma {:induction false} FindAppended(rows: seq<User>, u: User)
    requires FindByEmail(rows, u.email).None?
    ensures FindByEmail(rows + [u], u.email) == Some(|rows|)
    decreases |rows|
  {
    if rows != [] {
      assert (rows + [u])[1..] == rows[1..] + [u];
      assert FindByEmail(rows[1..], u.email).None?;
      FindAppended(rows[1..], u);
    }
  }

  /** Registering the same email twice: the second call is a 409 and adds no
      user. */
  lemma {:induction false} RegisterTwiceConflicts(db: Db, iss: Issuer, req: RegisterRequest, req2: RegisterRequest,
                                                now: nat, later: nat, io: RegisterIo, io2: RegisterIo)
    requires iss.Ready() && RegisterSaves(db, req, io)
    requires req2.email == req.email && io2.find.Up?
    ensures var db' := Register(db, iss, req, now, io).1;
      Register(db', iss, req2, later, io2) == (Err(Reject(Conflict, EmailExists)), db', None)
  {
    var db' := Register(db, iss, req, now, io).1;
    FindAppended(db.rows, User(req.name, req.email, io.hash.value, AdminRole, None));
  }

  /** A user who has just registered, and whose password matches the stored
      hash, logs in and gets tokens for the new id with role "Admin". */
  lemma {:induction false} RegisterThenLogin(db: Db, iss: Issuer, matches: Matcher, req: RegisterRequest,
                                           now: nat, later: nat, io: RegisterIo)
    requires iss.Ready() && RoundTrips(iss.codec) && RegisterSaves(db, req, io)
    requires matches(req.password, io.hash.value) == Ok(true)
    ensures var db' := Register(db, iss, req, now, io).1;
      var r := Login(db', iss, matches, LoginRequest(req.email, req.password), later, Up);
      && r.Ok?
      && IssuedPair(iss, r.value, ShowNat(IdOf(|db.rows|)), AdminRole, later)
  {
    FindAppended(db.rows, User(req.name, req.email, io.hash.value, AdminRole, None));
  }

  /** The verification link mailed at registration verifies the new user's
      email while the 24-hour token is valid; following it again is a 400. */
  lemma {:induction false} RegisterThenVerifyEmail(db: Db, iss: Issuer, req: RegisterRequest, now: nat, later: nat,
                                                 muchLater: nat, io: RegisterIo)
    requires iss.Ready() && RoundTrips(iss.emailCodec)
    requires RegisterSaves(db, req, io) && io.publish.Up?
    requires IdOf(|db.rows|) <= I32Max
    requires now <= later <= muchLater <= now + VerificationLifetime + iss.validation.leeway
    ensures var (_, db', job) := Register(db, iss, req, now, io);
      var token := CreateEmailJwt(iss, ShowNat(IdOf(|db.rows|)), VerificationLifetime, now);
      && job == Some(EmailJob(req.email, VerifySubject, VerifyLinkBase + token))
      && var (reply, db'') := VerifyEmail(db', iss, token, later, Up, Up);
      && reply == Ok(StatusResponse(true, EmailVerified))
      && db''.rows[|db.rows|].emailVerifiedAt == Some(later)
      && VerifyEmail(db'', iss, token, muchLater, Up, Up) == (Err(Reject(BadRequest, AlreadyVerified)), db'')
  {
    var id := IdOf(|db.rows|);
    var token := CreateEmailJwt(iss, ShowNat(id), VerificationLifetime, now);
    VerifyEmailCreated(iss, ShowNat(id), VerificationLifetime, now, later);
    VerifyEmailCreated(iss, ShowNat(id), VerificationLifetime, now, muchLater);
    ParseShowNat(id);
  }

  /** Login gives the same status and message for an unknown email as for a
      wrong password. */
  lemma LoginDoesNotLeak(db: Db, iss: Issuer, matches: Matcher, unknown: LoginRequest, wrong: LoginRequest, now: nat)
    requires FindByEmail(db.rows, unknown.email).None?
    requires FindByEmail(db.rows, wrong.email).Some?
    requires matches(wrong.password, db.rows[FindByEmail(db.rows, wrong.email).value].password) == Ok(false)
    ensures Login(db, iss, matches, unknown, now, Up) == Login(db, iss, matches, wrong, now, Up)
    ensures Login(db, iss, matches, unknown, now, Up) == Err(Reject(Unauthorized, WrongCredentials))
  {
  }
}

=== FILE: text.dfy ===
/** The string and header-value operations the auth core relies on:
    `starts_with`, `trim_start_matches`, `HeaderValue::to_str`, integer
    `to_string` and `str::parse::<i32>`. */
module Text {
  import opened Prelude

  predicate StartsWith(s: string, p: string) {
    |p| <= |s| && s[..|p|] == p
  }

  /** `k` copies of `p`, one after another. */
  function Repeat(p: string, k: nat): (r: string)
    ensures |r| == k * |p|
  {
    if k == 0 then [] else p + Repeat(p, k - 1)
  }

  // ---------------------------------------------------------------------------
  // trim_start_matches

  /** `str::trim_start_matches` with a non-empty string pattern: strips the
      pattern from the front for as long as the text starts with it. */
  function TrimStartMatches(s: string, p: string): (r: string)
    requires p != []
    ensures !StartsWith(r, p)
    ensures |r| <= |s| && r == s[|s| - |r|..]
    decreases |s|
  {
    if StartsWith(s, p) then TrimStartMatches(s[|p|..], p) else s
  }

  /** The number of leading copies of `p` that `TrimStartMatches` removes. */
  function LeadingCopies(s: string, p: string): nat
    requires p != []
    decreases |s|
  {
    if StartsWith(s, p) then 1 + LeadingCopies(s[|p|..], p) else 0
  }

  /** What is trimmed away is exactly a run of whole copies of the pattern. */
  lemma {:induction false} TrimSplitsOffCopies(s: string, p: string)
    requires p != []
    ensures s == Repeat(p, LeadingCopies(s, p)) + TrimStartMatches(s, p)
    decreases |s|
  {
    if StartsWith(s, p) {
      TrimSplitsOffCopies(s[|p|..], p);
      assert s == p + s[|p|..];
    }
  }

  /** Conversely, any number of copies in front of a text that does not itself
      start with the pattern is removed, and nothing more. */
  lemma {:induction false} TrimAfterCopies(p: string, k: nat, t: string)
    requires p != [] && !StartsWith(t, p)
    ensures TrimStartMatches(Repeat(p, k) + t, p) == t
  {
    if k == 0 {
      assert Repeat(p, k) + t == t;
    } else {
      var s := Repeat(p, k) + t;
      assert s == p + (Repeat(p, k - 1) + t);
      assert s[..|p|] == p;
      assert s[|p|..] == Repeat(p, k - 1) + t;
      TrimAfterCopies(p, k - 1, t);
    }
  }

  // ---------------------------------------------------------------------------
  // Header values

  /** The codes `HeaderValue::to_str` accepts: horizontal tab and visible ASCII. */
  predicate Visible(code: int) {
    code == 9 || 32 <= code < 127
  }

  /** Text made only of characters whose codes are `Visible`. */
  predicate IsHeaderText(s: string) {
    forall i :: 0 <= i < |s| ==> Visible(s[i] as int)
  }

  /** `HeaderValue::to_str`: the value as text when every byte is visible. */
  function HeaderToStr(v: seq<Byte>): (r: Option<string>)
    ensures r.Some? <==> forall i :: 0 <= i < |v| ==> Visible(v[i])
    ensures r.Some? ==> IsHeaderText(r.value)
  {
    if forall i :: 0 <= i < |v| ==> Visible(v[i]) then
      Some(seq(|v|, i requires 0 <= i < |v| => (v[i] as int) as char))
    else
      None
  }

  /** The bytes a client sends for a header written as the text `s`. */
  function HeaderBytes(s: string): (v: seq<Byte>)
    requires IsHeaderText(s)
    ensures |v| == |s|
  {
    seq(|s|, i requires 0 <= i < |s| => s[i] as int)
  }

  lemma HeaderTextRoundTrip(s: string)
    requires IsHeaderText(s)
    ensures HeaderToStr(HeaderBytes(s)) == Some(s)
  {
    var v := HeaderBytes(s);
    assert forall i :: 0 <= i < |v| ==> Visible(v[i]);
    assert HeaderToStr(v).value == s;
  }

  // ---------------------------------------------------------------------------
  // Decimal integers

  predicate IsDigit(c: char) {
    '0' <= c <= '9'
  }

  predicate AllDigits(s: string) {
    forall i :: 0 <= i < |s| ==> IsDigit(s[i])
  }

  function DigitChar(d: nat): (c: char)
    requires d < 10
    ensures IsDigit(c)
  {
    (('0' as int) + d) as char
  }

  /** `to_string` of a non-negative integer: its decimal digits, most
      significant first, without leading zeros. */
  function ShowNat(n: nat): (s: string)
    ensures s != [] && AllDigits(s)
    ensures s[0] == '0' ==> n == 0
  {
    if n < 10 then [DigitChar(n)] else ShowNat(n / 10) + [DigitChar(n % 10)]
  }

  /** The number a string of decimal digits denotes. */
  function DigitsValue(s: string): nat
    requires AllDigits(s)
  {
    if s == [] then 0 else 10 * DigitsValue(s[..|s| - 1]) + ((s[|s| - 1] as int) - ('0' as int))
  }

  lemma {:induction false} DigitsValueOfShow(n: nat)
    ensures DigitsValue(ShowNat(n)) == n
  {
    if n >= 10 {
      var s := ShowNat(n);
      assert s[..|s| - 1] == ShowNat(n / 10);
      DigitsValueOfShow(n / 10);
    }
  }

  const I32Min: int := -0x8000_0000
  const I32Max: int := 0x7fff_ffff

  /** The text after an optional leading `+` or `-`. */
  function Unsigned(s: string): (u: string)
    requires s != []
    ensures |u| == |s| || u == s[1..]
  {
    if s[0] == '-' || s[0] == '+' then s[1..] else s
  }

  /** The shape of a decimal integer: an optional sign, then one or more digits. */
  predicate DecimalShape(s: string) {
    s != [] && Unsigned(s) != [] && AllDigits(Unsigned(s))
  }

  /** The integer a decimal text denotes. */
  function SignedValue(s: string): int
    requires DecimalShape(s)
  {
    if s[0] == '-' then -(DigitsValue(Unsigned(s)) as int) else DigitsValue(Unsigned(s))
  }

  /** `str::parse::<i32>`: text of decimal shape whose value fits in 32 signed
      bits parses to that value; everything else is an error. */
  function ParseI32(s: string): (r: Option<int>)
    ensures r.Some? <==> DecimalShape(s) && I32Min <= SignedValue(s) <= I32Max
    ensures r.Some? ==> r.value == SignedValue(s)
  {
    if s == [] then None
    else
      var digits := if s[0] == '-' || s[0] == '+' then s[1..] else s;
      if digits == [] || !AllDigits(digits) then None
      else
        var v: int := DigitsValue(digits);
        var n := if s[0] == '-' then -v else v;
        if I32Min <= n <= I32Max then Some(n) else None
  }

  /** Parsing reads back what `ShowNat` wrote, for every value an i32 holds. */
  lemma ParseShowNat(n: nat)
    requires n <= I32Max
    ensures ParseI32(ShowNat(n)) == Some(n)
  {
    DigitsValueOfShow(n);
  }

  /** A minus sign in front of a rendered number negates it, down to the
      least i32. */
  lemma ParseNegatedShow(n: nat)
    requires n <= -I32Min
    ensures ParseI32("-" + ShowNat(n)) == Some(-(n as int))
  {
    var s := "-" + ShowNat(n);
    assert s[1..] == ShowNat(n);
    DigitsValueOfShow(n);
  }

  /** Text with no digits at all, such as an empty id, never parses. */
  lemma ParseRejectsNonNumeric(s: string)
    requires forall i :: 0 <= i < |s| ==> !IsDigit(s[i])
    ensures ParseI32(s) == None
  {
    if s != [] && (s[0] == '-' || s[0] == '+') && |s| > 1 {
      assert !IsDigit(s[1..][0]);
    }
  }
}
